=== FILE: README.md ===
# FishEngine: scalar math helpers and the model-importer data model, in Dafny

This project models two pieces of FishEngine, a small real-time rendering
engine:

- **`Mathf`** (`mathf.dfy`): the engine's scalar helpers — `Clamp`,
  `Clamp01`, `Sign`, `Lerp`, `LerpUnclamped`, `InverseLerp`, `Repeat`,
  `PingPong`, `DeltaAngle`, `LerpAngle`, `MoveTowards`, `MoveTowardsAngle`,
  plus `Abs`, `Min`, `Max` and the `Floor`/`Ceil`/`Round` family. Every
  `float` is a Dafny `real`; `floor` is `.Floor`, `fabsf` is `Abs`.
  Wrapped values are characterised by congruence: `Congruent(x, y, m)`
  says `x - y` is a whole multiple of `m`. `Repeat` and `DeltaAngle` are
  shown to be THE representative of their input in `[0, length)` and
  `(-180, 180]` (`RepeatUnique`, `DeltaAngleUnique`). Most of the other
  angle and ping-pong laws are proved from those two.
- **`ModelImport`** (`model_importer.dfy`): the record types of the model
  importer:
  - `ModelNode`, one node of the imported tree;
  - `Model`, with its constructor and the accessors `mainMesh`,
    `mainAnimation` and `avatar`;
  - `ModelImporter`, the importer's option state, with its defaults and the
    setters `setFileScale`, `setImportNormals` and `setImportTangents`;
  - the closed enumerations `BuiltinModelType`, `ModelImporterNormals` and
    `ModelImporterTangents`, with their underlying values.

  Engine objects held by `shared_ptr` (`Mesh`, `Animation`, `Avatar`) are
  identity handles. A pointer that may be null is a `Wrappers.Option`
  (`wrappers.dfy`). Setters are pure functions that return the updated
  record.

Points about the code that shape the model:

- `mainMesh()` returns `m_meshes[0]` with no emptiness check
  (`source/ModelImporter.hpp:44`), so `MainMesh` requires a non-empty mesh
  list. `mainAnimation()` does check, and answers null on an empty list.
- `setFileScale` stores its argument as given, with no range check
  (`source/ModelImporter.hpp:111`). `SetFileScale` likewise accepts zero and
  negative scales.
- `MoveTowardsAngle` returns `target` itself only when the shortest turn is
  strictly within reach. When the turn is exactly `maxDelta` long, the
  result is `current + DeltaAngle(current, target)`. That angle is
  equivalent to `target` but may differ from it by whole turns.
- `LerpAngle` is declared as a non-static member of `Mathf`, so a caller
  needs a `Mathf` object. The default constructor is deleted, and before
  C++20 such an object can still be made by aggregate initialisation
  (`Mathf{}`). Its behaviour does not depend on the object, so it is
  modelled as a plain function.

## Model

| member | source | states |
|---|---|---|
| Mathf.Abs | source/Mathf.hpp:28-30 | the result is non-negative and is `f` or `-f` |
| Mathf.AbsInt | source/Mathf.hpp:32-34 | `std::abs` on a 32-bit int, defined only when the value is not the minimum int; the result is non-negative, in int range, and is `value` or `-value` |
| Mathf.Sign | source/Mathf.hpp:36-39 | the result is +1 or -1; it is negative exactly when `f` is negative, so zero maps to +1 |
| Mathf.SignTimesAbs | source/Mathf.hpp:28-39 | `Sign(f) * Abs(f) == f`: sign and magnitude rebuild the number |
| Mathf.Max | source/Mathf.hpp:270-272 | the result bounds both arguments from above and is one of them |
| Mathf.Min | source/Mathf.hpp:274-276 | the result bounds both arguments from below and is one of them |
| Mathf.Floor | source/Mathf.hpp:56-59 | the result is integral and is the largest integer not above `f`: `r <= f < r + 1` |
| Mathf.Ceil | source/Mathf.hpp:46-49 | the result is integral and is the smallest integer not below `f`: `r - 1 < f <= r` |
| Mathf.Round | source/Mathf.hpp:66-69 | the result is integral and within 1/2 of `f`; at an exact half it lies farther from zero than `f` (ties away from zero) |
| Mathf.FloorToInt | source/Mathf.hpp:61-64 | defined when the floor fits in a 32-bit int (the cast is undefined otherwise); the result fits, and `r <= f < r + 1` |
| Mathf.CeilToInt | source/Mathf.hpp:51-54 | defined when the ceiling fits in a 32-bit int; the result fits, and `r - 1 < f <= r` |
| Mathf.RoundToInt | source/Mathf.hpp:71-74 | defined when the rounded value fits in a 32-bit int; the result fits, is within 1/2 of `f`, breaks ties away from zero, and equals `Round(f)` |
| Mathf.Clamp | source/Mathf.hpp:79-84 | for `min <= max` the result is in `[min, max]`; a value already inside is returned unchanged; for an inverted range the result is `min` exactly when `value < min`, else `max` |
| Mathf.ClampIsNearest | source/Mathf.hpp:79-84 | over a proper range, no point of the range is closer to `value` than the clamped result |
| Mathf.Clamp01 | source/Mathf.hpp:86-94 | the result is in `[0, 1]`; identity on `[0, 1]`; below 0 gives 0, above 1 gives 1 |
| Mathf.Clamp01IsClamp | source/Mathf.hpp:79-94 | `Clamp01(v)` equals `Clamp(v, 0, 1)` |
| Mathf.Clamp01Idempotent | source/Mathf.hpp:86-94 | clamping twice is the same as clamping once |
| Mathf.LerpUnclamped | source/Mathf.hpp:160-163 | `t = 0` gives `a` and `t = 1` gives `b`; every `t` in `[0, 1]` gives a point between `a` and `b`; for `t > 1` the result lies beyond `b`, and for `t < 0` beyond `a` |
| Mathf.LerpUnclampedAffine | source/Mathf.hpp:160-163 | at every parameter the result is the weighted sum `(1 - t) a + t b` |
| Mathf.Lerp | source/Mathf.hpp:156-158 | `t <= 0` gives `a`, `t >= 1` gives `b`, and every result lies between `a` and `b` |
| Mathf.LerpIsClampedLerpUnclamped | source/Mathf.hpp:156-163 | `Lerp` is `LerpUnclamped` at the clamped parameter |
| Mathf.InverseLerp | source/Mathf.hpp:175-182 | the result is in `[0, 1]`; it is 0 when `a == b`; for `a != b` and a value between the ends, `LerpUnclamped` at the result gives the value back |
| Mathf.InverseLerpOfLerp | source/Mathf.hpp:160-182 | for `a != b`, `InverseLerp(a, b, LerpUnclamped(a, b, t)) == Clamp01(t)` |
| Mathf.Repeat | source/Mathf.hpp:151-154 | for `length > 0` the result is in `[0, length)`; for `length < 0` it is in `(length, 0]`; it differs from `t` by a whole multiple of `length` |
| Mathf.RepeatUnique | source/Mathf.hpp:151-154 | for `length > 0`, any value in `[0, length)` congruent to `t` IS `Repeat(t, length)` |
| Mathf.RepeatIdentity | source/Mathf.hpp:151-154 | `Repeat` leaves a value already in `[0, length)` unchanged |
| Mathf.RepeatPeriodic | source/Mathf.hpp:151-154 | shifting `t` by whole periods does not change `Repeat` |
| Mathf.PingPong | source/Mathf.hpp:184-188 | for `length > 0` the result is in `[0, length]` |
| Mathf.PingPongRising | source/Mathf.hpp:184-188 | on `[0, length]` `PingPong` is the identity |
| Mathf.PingPongFalling | source/Mathf.hpp:184-188 | on `[length, 2 length)` `PingPong` runs back down: `2 length - t` |
| Mathf.PingPongPeriodic | source/Mathf.hpp:184-188 | `PingPong` has period `2 length` |
| Mathf.PingPongEven | source/Mathf.hpp:184-188 | `PingPong(-t) == PingPong(t)` |
| Mathf.DeltaAngle | source/Mathf.hpp:227-235 | the result is in `(-180, 180]` and is congruent to `target - current` modulo 360 |
| Mathf.DeltaAngleUnique | source/Mathf.hpp:227-235 | any value in `(-180, 180]` congruent to `target - current` modulo 360 IS `DeltaAngle(current, target)` |
| Mathf.DeltaAngleCongruent | source/Mathf.hpp:227-235 | targets that differ by whole turns give the same delta |
| Mathf.DeltaAngleAntisymmetric | source/Mathf.hpp:227-235 | swapping the arguments negates the delta, except that a half turn stays 180 |
| Mathf.DeltaAngleSelf | source/Mathf.hpp:227-235 | the delta from an angle to itself is 0 |
| Mathf.LerpAngle | source/Mathf.hpp:165-173 | the result is `a` plus `DeltaAngle(a, b)` scaled by the clamped parameter, and stays within 180 of `a` |
| Mathf.LerpAngleReachesTarget | source/Mathf.hpp:165-173 | for `t >= 1` the result is an angle equivalent to `b` (delta 0) |
| Mathf.MoveTowards | source/Mathf.hpp:239-246 | the result is `target` exactly when it is within `maxDelta`; otherwise the distance to `target` shrinks by `maxDelta`; for a non-negative `maxDelta` the result lies between `current` and `target` and, when out of reach, exactly `maxDelta` from `current`; a negative `maxDelta` backs away from `target` by `-maxDelta`, moving down when `current == target` |
| Mathf.MoveTowardsStepsGap | source/Mathf.hpp:239-246 | after `n` repeated moves the remaining gap is `max(0, gap - Travel(n, maxDelta))`, where `Travel` adds `maxDelta` `n` times: moves converge without overshoot |
| Mathf.MoveTowardsStepsConverge | source/Mathf.hpp:239-246 | after `n` repeated moves the remaining gap is exactly `max(0, gap - n * maxDelta)` |
| Mathf.MoveTowardsAngle | source/Mathf.hpp:248-257 | a shortest turn strictly within reach returns `target`; otherwise the result is exactly `maxDelta` from `current` along the shortest turn, so a turn exactly `maxDelta` long ends at `current + DeltaAngle(current, target)`, which may differ from `target` by whole turns; a negative `maxDelta` turns away by `-maxDelta`, and moves down on a zero turn |
| Mathf.MoveTowardsAngleGap | source/Mathf.hpp:227-257 | the remaining turn to `target` after one move equals `MoveTowards(DeltaAngle(current, target), 0, maxDelta)`: it shrinks by `maxDelta` with its sign kept, and is 0 once in reach |
| ModelImport.BuiltinOrdinal | source/ModelImporter.hpp:30-32 | each builtin model type has an underlying value below 7 |
| ModelImport.BuiltinFromOrdinal | source/ModelImporter.hpp:30-32 | an integer names a builtin model type exactly when it is in `0..6` |
| ModelImport.BuiltinOrdinalRoundTrip | source/ModelImporter.hpp:30-32 | the seven types and the values `0..6` correspond one to one |
| ModelImport.NewModel | source/ModelImporter.hpp:37 | a constructed model has no meshes, no clips and no root, and a non-null avatar |
| ModelImport.ModelRecord | source/ModelImporter.hpp:34-82 | each accessor reads only its own data member: changing the other members changes neither `avatar()` nor `mainAnimation()`, nor a defined `mainMesh()` |
| ModelImport.AvatarOf | source/ModelImporter.hpp:53-55 | `avatar()` hands out the stored avatar pointer unchanged |
| ModelImport.NewModelHasAvatar | source/ModelImporter.hpp:37-55 | `avatar()` of a constructed model is the avatar the constructor made |
| ModelImport.MainMesh | source/ModelImporter.hpp:43-45 | defined only on a non-empty mesh list, since there is no check; returns the first mesh |
| ModelImport.MainAnimation | source/ModelImporter.hpp:47-51 | null exactly when there are no clips; otherwise the first clip |
| ModelImport.AccessorsOnFreshModel | source/ModelImporter.hpp:37-51 | on a constructed model `mainAnimation()` is null, while `mainMesh()`'s precondition fails |
| ModelImport.NormalsOrdinal | source/ModelImporter.hpp:85-90 | each normals option has an underlying value below 3 |
| ModelImport.NormalsFromOrdinal | source/ModelImporter.hpp:85-90 | an integer names a normals option exactly when it is in `0..2` |
| ModelImport.TangentsOrdinal | source/ModelImporter.hpp:94-100 | each tangents option has an underlying value below 3 |
| ModelImport.TangentsFromOrdinal | source/ModelImporter.hpp:94-100 | an integer names a tangents option exactly when it is in `0..2` |
| ModelImport.OptionOrdinalsRoundTrip | source/ModelImporter.hpp:85-100 | both three-value option types correspond one to one with `0..2` |
| ModelImport.PNUTIsEverything | source/ModelImporter.hpp:152 | the default vertex usage `PNUT` keeps every vertex attribute |
| ModelImport.DefaultImporter | source/ModelImporter.hpp:134-162 | a default importer has `fileScale` 1, normals `Import`, tangents `Calculate`, every vertex attribute, no model and no recorded node transforms |
| ModelImport.SetFileScale | source/ModelImporter.hpp:107-112 | sets `fileScale` to the argument and leaves every other field unchanged |
| ModelImport.SetImportNormals | source/ModelImporter.hpp:118-123 | sets the normals option and leaves every other field unchanged |
| ModelImport.SetImportTangents | source/ModelImporter.hpp:125-130 | sets the tangents option and leaves every other field unchanged |
| ModelImport.SettersIdempotent | source/ModelImporter.hpp:107-130 | setting a field to its current value changes nothing |
| ModelImport.SettersLastWriteWins | source/ModelImporter.hpp:107-130 | a second call to the same setter overrides the first |
| ModelImport.SettersCommute | source/ModelImporter.hpp:107-130 | the setters touch disjoint fields, so any two commute |

## Left out

- Repeat: requires `length != 0`. With a zero length the float code divides by zero and yields NaN, which reals cannot represent.
- PingPong: requires `length != 0`, for the same reason, since it calls `Repeat` with `2 * length`.
- IEEE single precision: rounding, infinities and NaN are not modelled. All arithmetic is exact over reals.
- `Approximately`, `PositiveInfinity`/`Infinity`/`NegativeInfinity` and `Epsilon`: their meaning depends on float limits.
- `PI`, `Deg2Rad`, `Rad2Deg`, `Degrees` and `Radians`: they depend on a float approximation of pi.
- `Sqrt`, `Pow`, `Exp`, `Log`, `Log10`, `Gamma` and `Sin` through `Atan2`: library transcendental functions. `Acos` scales its input by `Deg2Rad` rather than its output by `Rad2Deg`, unlike its neighbours; it is not modelled.
- `ClosestPowerOfTwo`, `IsPowerOfTwo`, `NextPowerOfTwo`, `GammaToLinearSpace`, `LinearToGammaSpace` and `PerlinNoise`: declared without bodies.
- `ModelImporter::LoadFromFile`, `buildModelTree`, `ParseMesh` and `RemoveDummyNodeFBX`: declared without bodies. They sit on top of the Assimp scene types.
- `Model::CreateGameObject`, `ResursivelyCreateGameObject`, `Init`, `builtinModel` and `AddMesh`: declared without bodies.
- The static `s_builtinModels` map and the mutable `m_rootGameObject` cache: process-wide or cached state with no visible logic.
- The contents of `Mesh`, `Animation`, `Avatar`, `Matrix4x4` and `AssetImporter`: those headers are not part of this model. The first three are identity handles, and a matrix is its sixteen entries.
- The bit values of `VertexUsage`: `Mesh.hpp` is not part of this model. A usage mask is the set of attributes it keeps.
- The editor's property inspector (`Inspector.cpp`): GUI widget glue with no behaviour to state.

=== FILE: mathf.dfy ===
/**
  The engine's scalar helpers (class `Mathf`), over mathematical reals.

  Every `float` becomes a `real`, so IEEE rounding, infinities and NaN are
  not modelled; `fabsf` is `Abs`, `floor`/`floorf` is `.Floor`.
*/
module Mathf {

  // ---------------------------------------------------------------------
  // Vocabulary used by the contracts
  // ---------------------------------------------------------------------

  /** `x` has no fractional part. */
  predicate IsIntegral(x: real) {
    x.Floor as real == x
  }

  /** `x` lies on the closed segment between `a` and `b`, in either order. */
  predicate Between(x: real, a: real, b: real) {
    (a <= x <= b) || (b <= x <= a)
  }

  predicate InInt32(n: int) {
    -0x8000_0000 <= n < 0x8000_0000
  }

  /** The integer multiple `k * m`. */
  ghost function Multiple(k: int, m: real): real {
    k as real * m
  }

  /** `x` and `y` differ by a whole number of `m`s. */
  ghost predicate Congruent(x: real, y: real, m: real) {
    exists k: int {:trigger Multiple(k, m)} :: x - y == Multiple(k, m)
  }

  // ---------------------------------------------------------------------
  // Abs, Sign, Min, Max
  // ---------------------------------------------------------------------

  /** `Abs(float)`: the magnitude of `f`. */
  function Abs(f: real): (r: real)
    ensures 0.0 <= r
    ensures r == f || r == -f
  {
    if f < 0.0 then -f else f
  }

  /** `Abs(int)`: `std::abs` on a 32-bit int, undefined for the minimum value. */
  function AbsInt(value: int): (r: int)
    requires -0x8000_0000 < value < 0x8000_0000
    ensures 0 <= r < 0x8000_0000
    ensures r == value || r == -value
  {
    if value < 0 then -value else value
  }

  /** `Sign`: -1 for negative input and +1 otherwise, so zero counts as positive. */
  function Sign(f: real): (r: real)
    ensures r == 1.0 || r == -1.0
    ensures r < 0.0 <==> f < 0.0
  {
    if f < 0.0 then -1.0 else 1.0
  }

  /** Sign and magnitude together give back the number. */
  lemma SignTimesAbs(f: real)
    ensures Sign(f) * Abs(f) == f
  {
  }

  /** `Max`: `std::max(a, b)`, which yields `a` unless `a < b`. */
  function Max(a: real, b: real): (r: real)
    ensures a <= r && b <= r
    ensures r == a || r == b
  {
    if a < b then b else a
  }

  /** `Min`: `std::min(a, b)`, which yields `a` unless `b < a`. */
  function Min(a: real, b: real): (r: real)
    ensures r <= a && r <= b
    ensures r == a || r == b
  {
    if b < a then b else a
  }

  // ---------------------------------------------------------------------
  // Floor, Ceil, Round and their int-returning variants
  // ---------------------------------------------------------------------

  function Floor(f: real): (r: real)
    ensures IsIntegral(r)
    ensures r <= f < r + 1.0
  {
    f.Floor as real
  }

  function Ceil(f: real): (r: real)
    ensures IsIntegral(r)
    ensures r - 1.0 < f <= r
  {
    var n := -((-f).Floor);
    assert (n as real).Floor == n;
    n as real
  }

  /** `std::round`: nearest integer, halfway cases away from zero. */
  function Round(f: real): (r: real)
    ensures IsIntegral(r)
    ensures Abs(r - f) <= 0.5
    ensures Abs(r - f) == 0.5 ==> Abs(f) < Abs(r)
  {
    var n := if 0.0 <= f then (f + 0.5).Floor else -((-f + 0.5).Floor);
    assert (n as real).Floor == n;
    n as real
  }

  /** `(int)floor(f)`; the cast is undefined outside the int range. */
  function FloorToInt(f: real): (r: int)
    requires -2147483648.0 <= f < 2147483648.0
    ensures InInt32(r)
    ensures r as real <= f < r as real + 1.0
  {
    Floor(f).Floor
  }

  /** `(int)ceil(f)`; the cast is undefined outside the int range. */
  function CeilToInt(f: real): (r: int)
    requires -2147483649.0 < f <= 2147483647.0
    ensures InInt32(r)
    ensures r as real - 1.0 < f <= r as real
  {
    Ceil(f).Floor
  }

  /** `(int)round(f)`; the cast is undefined outside the int range. */
  function RoundToInt(f: real): (r: int)
    requires -2147483648.5 < f < 2147483647.5
    ensures InInt32(r)
    ensures Abs(r as real - f) <= 0.5
    ensures Abs(r as real - f) == 0.5 ==> Abs(f) < Abs(r as real)
    ensures r as real == Round(f)
  {
    Round(f).Floor
  }

  // ---------------------------------------------------------------------
  // Clamp and Clamp01
  // ---------------------------------------------------------------------

  /**
    `Clamp`: below the lower bound gives the lower bound, else above the
    upper bound gives the upper bound, else the value itself. No order
    between the bounds is checked: an inverted range yields one of them.
  */
  function Clamp(value: real, minValue: real, maxValue: real): (r: real)
    ensures minValue <= maxValue ==> minValue <= r <= maxValue
    ensures minValue <= value <= maxValue ==> r == value
    ensures maxValue < minValue ==> (r == minValue <==> value < minValue) && (r == minValue || r == maxValue)
  {
    if value < minValue then minValue
    else if value > maxValue then maxValue
    else value
  }

  function Clamp01(value: real): (r: real)
    ensures 0.0 <= r <= 1.0
    ensures 0.0 <= value <= 1.0 ==> r == value
    ensures value < 0.0 ==> r == 0.0
    ensures 1.0 < value ==> r == 1.0
  {
    if value < 0.0 then 0.0
    else if value > 1.0 then 1.0
    else value
  }

  /** Over a proper range the clamped value is the nearest point of the range. */
  lemma ClampIsNearest(value: real, minValue: real, maxValue: real, x: real)
    requires minValue <= x <= maxValue
    ensures Abs(Clamp(value, minValue, maxValue) - value) <= Abs(x - value)
  {
  }

  lemma Clamp01IsClamp(value: real)
    ensures Clamp01(value) == Clamp(value, 0.0, 1.0)
  {
  }

  lemma Clamp01Idempotent(value: real)
    ensures Clamp01(Clamp01(value)) == Clamp01(value)
  {
  }

  // ---------------------------------------------------------------------
  // Small facts about products, kept apart so each proof stays linear
  // ---------------------------------------------------------------------

  /** Scaling by a factor in [0, 1] keeps a value between 0 and itself. */
  lemma MulUnit(c: real, t: real)
    requires 0.0 <= t <= 1.0
    ensures 0.0 <= c ==> 0.0 <= c * t <= c
    ensures c <= 0.0 ==> c <= c * t <= 0.0
  {
    if 0.0 <= c {
      assert c * t <= c * 1.0;
    } else {
      assert c * 1.0 <= c * t;
    }
  }

  lemma MulDiv(c: real, t: real)
    requires c != 0.0
    ensures (c * t) / c == t
  {
  }

  /** `n / d` lies in [0, 1] when `n` lies between 0 and `d`. */
  lemma RatioUnit(n: real, d: real)
    requires d != 0.0
    requires Between(n, 0.0, d)
    ensures 0.0 <= n / d <= 1.0
  {
    if d < 0.0 {
      assert n / d == (-n) / (-d);
    }
  }

  /** With `q * length == t` and `k` the whole part of `q`, `t - k * length` is in one period. */
  lemma ScaleBounds(t: real, length: real, q: real, k: real)
    requires q * length == t
    requires k <= q < k + 1.0
    ensures 0.0 < length ==> 0.0 <= t - k * length < length
    ensures length < 0.0 ==> length < t - k * length <= 0.0
  {
    var f := q - k;
    assert t - k * length == f * length;
    if 0.0 < length {
      assert 0.0 <= f * length;
      assert f * length < 1.0 * length;
    } else if length < 0.0 {
      assert f * length <= 0.0;
      assert 1.0 * length < f * length;
    }
  }

  // ---------------------------------------------------------------------
  // Lerp, LerpUnclamped, InverseLerp
  // ---------------------------------------------------------------------

  /** `LerpUnclamped`: the affine combination of `a` and `b` at parameter `t`. */
  function LerpUnclamped(a: real, b: real, t: real): (r: real)
    ensures t == 0.0 ==> r == a
    ensures t == 1.0 ==> r == b
    ensures 0.0 <= t <= 1.0 ==> Between(r, a, b)
    ensures 1.0 < t ==> Between(b, a, r)
    ensures t < 0.0 ==> Between(a, r, b)
  {
    LerpBetween(a, b, t);
    LerpExtrapolates(a, b, t);
    a + (b - a) * t
  }

  lemma MulMono(c: real, s: real, t: real)
    requires 0.0 <= c && s <= t
    ensures c * s <= c * t
  {
  }

  /** Past either end the line carries on beyond that end, away from the other. */
  lemma LerpExtrapolates(a: real, b: real, t: real)
    ensures 1.0 < t ==> Between(b, a, a + (b - a) * t)
    ensures t < 0.0 ==> Between(a, a + (b - a) * t, b)
  {
    var c := b - a;
    if 1.0 < t {
      if 0.0 <= c {
        MulMono(c, 1.0, t);
        assert a <= b <= a + c * t;
      } else {
        MulMono(-c, 1.0, t);
        assert (-c) * t == -(c * t);
        assert a + c * t <= b <= a;
      }
    } else if t < 0.0 {
      if 0.0 <= c {
        assert c * t <= 0.0;
      } else {
        assert 0.0 <= c * t;
      }
    }
  }

  /**
    The unclamped interpolation is the weighted sum `(1 - t) a + t b` at
    every parameter, inside [0, 1] and beyond it.
  */
  lemma LerpUnclampedAffine(a: real, b: real, t: real)
    ensures LerpUnclamped(a, b, t) == (1.0 - t) * a + t * b
  {
    assert (b - a) * t == t * b - t * a;
    assert (1.0 - t) * a == a - t * a;
  }

  lemma LerpBetween(a: real, b: real, t: real)
    ensures 0.0 <= t <= 1.0 ==> Between(a + (b - a) * t, a, b)
  {
    if 0.0 <= t <= 1.0 {
      var c := b - a;
      MulUnit(c, t);
      if 0.0 <= c {
        assert a <= a + c * t <= b;
      } else {
        assert b <= a + c * t <= a;
      }
    }
  }

  /** `Lerp`: interpolation with the parameter first clamped to [0, 1]. */
  function Lerp(a: real, b: real, t: real): (r: real)
    ensures t <= 0.0 ==> r == a
    ensures 1.0 <= t ==> r == b
    ensures Between(r, a, b)
  {
    LerpBetween(a, b, Clamp01(t));
    a + (b - a) * Clamp01(t)
  }

  /** Lerp is LerpUnclamped at the clamped parameter. */
  lemma LerpIsClampedLerpUnclamped(a: real, b: real, t: real)
    ensures Lerp(a, b, t) == LerpUnclamped(a, b, Clamp01(t))
  {
  }

  /**
    `InverseLerp`: the parameter at which `value` lies on the way from `a`
    to `b`, clamped to [0, 1]; 0 when the two ends coincide.
  */
  function InverseLerp(a: real, b: real, value: real): (r: real)
    ensures 0.0 <= r <= 1.0
    ensures a == b ==> r == 0.0
    ensures a != b && Between(value, a, b) ==> LerpUnclamped(a, b, r) == value
  {
    if a != b then
      var u := (value - a) / (b - a);
      InverseLerpInRange(a, b, value);
      Clamp01(u)
    else 0.0
  }

  lemma InverseLerpInRange(a: real, b: real, value: real)
    requires a != b
    ensures Between(value, a, b) ==> 0.0 <= (value - a) / (b - a) <= 1.0
    ensures a + (b - a) * ((value - a) / (b - a)) == value
  {
    var u := (value - a) / (b - a);
    assert (b - a) * u == value - a;
    if Between(value, a, b) {
      RatioUnit(value - a, b - a);
    }
  }

  /** InverseLerp undoes LerpUnclamped, up to clamping of the parameter. */
  lemma InverseLerpOfLerp(a: real, b: real, t: real)
    requires a != b
    ensures InverseLerp(a, b, LerpUnclamped(a, b, t)) == Clamp01(t)
  {
    var v := LerpUnclamped(a, b, t);
    var c := b - a;
    assert v - a == c * t;
    MulDiv(c, t);
    assert (v - a) / c == t;
  }

  // ---------------------------------------------------------------------
  // Repeat and PingPong
  // ---------------------------------------------------------------------

  /**
    `Repeat`: `t` wrapped into one period of length `length`, i.e.
    `t - floor(t / length) * length`.
  */
  function Repeat(t: real, length: real): (r: real)
    requires length != 0.0
    ensures 0.0 < length ==> 0.0 <= r < length
    ensures length < 0.0 ==> length < r <= 0.0
    ensures Congruent(r, t, length)
  {
    var k := (t / length).Floor;
    FloorScaled(t, length);
    assert (t - k as real * length) - t == Multiple(-k, length);
    t - k as real * length
  }

  lemma FloorScaled(t: real, length: real)
    requires length != 0.0
    ensures var k := (t / length).Floor as real;
      && (0.0 < length ==> 0.0 <= t - k * length < length)
      && (length < 0.0 ==> length < t - k * length <= 0.0)
  {
    var q := t / length;
    assert q * length == t;
    ScaleBounds(t, length, q, q.Floor as real);
  }

  lemma MultipleAdd(j: int, k: int, m: real)
    ensures Multiple(j, m) + Multiple(k, m) == Multiple(j + k, m)
  {
  }

  /** A whole multiple of `m` strictly inside (-m, m) is zero. */
  lemma MultipleSmall(n: int, m: real)
    requires 0.0 < m
    requires -m < Multiple(n, m) < m
    ensures n == 0
  {
  }

  /**
    For a positive period, Repeat is THE representative of `t` in
    [0, length): any such congruent value is the one it returns.
  */
  lemma RepeatUnique(t: real, length: real, x: real, k: int)
    requires 0.0 < length
    requires 0.0 <= x < length
    requires x - t == Multiple(k, length)
    ensures Repeat(t, length) == x
  {
    var r := Repeat(t, length);
    var j :| r - t == Multiple(j, length);
    MultipleAdd(k, -j, length);
    assert Multiple(-j, length) == -Multiple(j, length);
    assert x - r == Multiple(k - j, length);
    MultipleSmall(k - j, length);
  }

  /** Repeat is the identity on its own period. */
  lemma RepeatIdentity(t: real, length: real)
    requires 0.0 <= t < length
    ensures Repeat(t, length) == t
  {
    RepeatUnique(t, length, t, 0);
  }

  /** Shifting the input by whole periods does not change the result. */
  lemma {:induction false} RepeatPeriodic(t: real, length: real, n: int)
    requires 0.0 < length
    ensures Repeat(t + Multiple(n, length), length) == Repeat(t, length)
  {
    var r := Repeat(t, length);
    var j :| r - t == Multiple(j, length);
    MultipleAdd(j, -n, length);
    assert Multiple(-n, length) == -Multiple(n, length);
    RepeatUnique(t + Multiple(n, length), length, r, j - n);
  }

  /**
    `PingPong`: `t` bounced back and forth between 0 and `length`, built
    from `Repeat` over the doubled period.
  */
  function PingPong(t: real, length: real): (r: real)
    requires length != 0.0
    ensures 0.0 < length ==> 0.0 <= r <= length
  {
    var w := Repeat(t, length * 2.0);
    length - Abs(w - length)
  }

  /** On the first leg PingPong is the identity. */
  lemma PingPongRising(t: real, length: real)
    requires 0.0 <= t <= length
    requires 0.0 < length
    ensures PingPong(t, length) == t
  {
    RepeatIdentity(t, length * 2.0);
  }

  /** On the second leg PingPong runs back down: it reflects about `length`. */
  lemma PingPongFalling(t: real, length: real)
    requires length <= t < 2.0 * length
    requires 0.0 < length
    ensures PingPong(t, length) == 2.0 * length - t
  {
    RepeatIdentity(t, length * 2.0);
  }

  /** PingPong has period `2 * length`. */
  lemma PingPongPeriodic(t: real, length: real)
    requires 0.0 < length
    ensures PingPong(t + 2.0 * length, length) == PingPong(t, length)
  {
    assert Multiple(1, length * 2.0) == 2.0 * length;
    RepeatPeriodic(t, length * 2.0, 1);
  }

  /** PingPong is an even function of `t`. */
  lemma PingPongEven(t: real, length: real)
    requires 0.0 < length
    ensures PingPong(-t, length) == PingPong(t, length)
  {
    var p := length * 2.0;
    var w := Repeat(t, p);
    var j :| w - t == Multiple(j, p);
    if w == 0.0 {
      assert 0.0 - (-t) == Multiple(-j, p);
      RepeatUnique(-t, p, 0.0, -j);
    } else {
      MultipleAdd(1, -j, p);
      assert Multiple(-j, p) == -Multiple(j, p);
      assert (p - w) - (-t) == Multiple(1 - j, p);
      RepeatUnique(-t, p, p - w, 1 - j);
    }
  }

  // ---------------------------------------------------------------------
  // Angles: DeltaAngle and LerpAngle
  // ---------------------------------------------------------------------

  /**
    `DeltaAngle`: the signed shortest turn, in degrees, from `current` to
    `target`: the wrapped difference moved into (-180, 180].
  */
  function DeltaAngle(current: real, target: real): (r: real)
    ensures -180.0 < r <= 180.0
    ensures Congruent(r, target - current, 360.0)
  {
    var num := Repeat(target - current, 360.0);
    if num > 180.0 then
      CongruentShiftDown(num, target - current, 360.0);
      num - 360.0
    else num
  }

  lemma CongruentShiftDown(x: real, y: real, m: real)
    requires Congruent(x, y, m)
    ensures Congruent(x - m, y, m)
  {
    var k :| x - y == Multiple(k, m);
    MultipleAdd(k, -1, m);
    assert (x - m) - y == Multiple(k - 1, m);
  }

  /**
    DeltaAngle is THE representative of `target - current` in (-180, 180]:
    it is fully determined by that interval and the congruence.
  */
  lemma DeltaAngleUnique(current: real, target: real, d: real, k: int)
    requires -180.0 < d <= 180.0
    requires d - (target - current) == Multiple(k, 360.0)
    ensures DeltaAngle(current, target) == d
  {
    if 0.0 <= d {
      RepeatUnique(target - current, 360.0, d, k);
    } else {
      assert (d + 360.0) - (target - current) == Multiple(k + 1, 360.0);
      RepeatUnique(target - current, 360.0, d + 360.0, k + 1);
    }
  }

  /** Any two angles that differ by whole turns have the same delta. */
  lemma DeltaAngleCongruent(current: real, target: real, target': real)
    requires Congruent(target', target, 360.0)
    ensures DeltaAngle(current, target') == DeltaAngle(current, target)
  {
    var d := DeltaAngle(current, target);
    var j :| d - (target - current) == Multiple(j, 360.0);
    var n :| target' - target == Multiple(n, 360.0);
    assert d - (target' - current) == Multiple(j - n, 360.0);
    DeltaAngleUnique(current, target', d, j - n);
  }

  /** Swapping the two angles negates the delta, except at a half turn. */
  lemma DeltaAngleAntisymmetric(current: real, target: real)
    ensures DeltaAngle(target, current) ==
      if DeltaAngle(current, target) == 180.0 then 180.0 else -DeltaAngle(current, target)
  {
    var d := DeltaAngle(current, target);
    var j :| d - (target - current) == Multiple(j, 360.0);
    if d == 180.0 {
      assert 180.0 - (current - target) == Multiple(1 - j, 360.0);
      DeltaAngleUnique(target, current, 180.0, 1 - j);
    } else {
      assert -d - (current - target) == Multiple(-j, 360.0);
      DeltaAngleUnique(target, current, -d, -j);
    }
  }

  /** An angle's delta to itself is zero. */
  lemma DeltaAngleSelf(a: real)
    ensures DeltaAngle(a, a) == 0.0
  {
    DeltaAngleUnique(a, a, 0.0, 0);
  }

  /**
    `LerpAngle`: interpolates from `a` towards `b` along the shortest turn,
    with the parameter clamped to [0, 1].
  */
  function LerpAngle(a: real, b: real, t: real): (r: real)
    ensures Abs(r - a) <= 180.0
    ensures r == a + DeltaAngle(a, b) * Clamp01(t)
  {
    var num := Repeat(b - a, 360.0);
    var num' := if num > 180.0 then num - 360.0 else num;
    var c := Clamp01(t);
    MulUnit(num', c);
    a + num' * c
  }

  /** A full LerpAngle lands on an angle equivalent to `b`. */
  lemma LerpAngleReachesTarget(a: real, b: real, t: real)
    requires 1.0 <= t
    ensures DeltaAngle(LerpAngle(a, b, t), b) == 0.0
  {
    var d := DeltaAngle(a, b);
    var j :| d - (b - a) == Multiple(j, 360.0);
    assert 0.0 - (b - LerpAngle(a, b, t)) == Multiple(j, 360.0);
    DeltaAngleUnique(LerpAngle(a, b, t), b, 0.0, j);
  }

  // ---------------------------------------------------------------------
  // MoveTowards and MoveTowardsAngle
  // ---------------------------------------------------------------------

  /**
    `MoveTowards`: step from `current` towards `target` by `maxDelta`,
    landing exactly on `target` when it is within reach. The step
    direction is `Sign(target - current)`, so +1 when the two coincide.
  */
  function MoveTowards(current: real, target: real, maxDelta: real): (r: real)
    ensures r == target <==> Abs(target - current) <= maxDelta
    ensures maxDelta < Abs(target - current) ==> Abs(target - r) == Abs(target - current) - maxDelta
    ensures 0.0 <= maxDelta ==> Abs(r - current) <= maxDelta && Between(r, current, target)
    ensures 0.0 <= maxDelta < Abs(target - current) ==> Abs(r - current) == maxDelta
    ensures maxDelta < 0.0 ==>
      Between(current, r, target) && Abs(r - current) == -maxDelta && (current == target ==> r < current)
  {
    if Abs(target - current) <= maxDelta then target
    else
      var s := Sign(target - current);
      if s == 1.0 then current + maxDelta else current - maxDelta
  }

  /** Applying MoveTowards `n` times, as once per frame. */
  function MoveTowardsSteps(current: real, target: real, maxDelta: real, n: nat): real
    decreases n
  {
    if n == 0 then current
    else MoveTowardsSteps(MoveTowards(current, target, maxDelta), target, maxDelta, n - 1)
  }

  lemma {:induction false} MoveTowardsStepsStays(target: real, maxDelta: real, n: nat)
    requires 0.0 <= maxDelta
    ensures MoveTowardsSteps(target, target, maxDelta, n) == target
    decreases n
  {
    if n > 0 {
      MoveTowardsStepsStays(target, maxDelta, n - 1);
    }
  }

  /** The distance covered by `n` steps of `step` each, i.e. `n * step`. */
  function Travel(n: nat, step: real): (r: real)
    ensures 0.0 <= step ==> 0.0 <= r
    decreases n
  {
    if n == 0 then 0.0 else Travel(n - 1, step) + step
  }

  lemma {:induction false} TravelIsProduct(n: nat, step: real)
    ensures Travel(n, step) == n as real * step
    decreases n
  {
    if n > 0 {
      TravelIsProduct(n - 1, step);
      assert (n - 1) as real * step + step == n as real * step;
    }
  }

  /**
    After `n` steps the remaining distance has shrunk by `n * maxDelta`
    (`Travel(n, maxDelta)`), and never below zero: repeated moves converge
    on the target without overshooting it.
  */
  lemma {:induction false} MoveTowardsStepsGap(current: real, target: real, maxDelta: real, n: nat)
    requires 0.0 <= maxDelta
    ensures Abs(target - MoveTowardsSteps(current, target, maxDelta, n))
         == Max(0.0, Abs(target - current) - Travel(n, maxDelta))
    decreases n
  {
    if n > 0 {
      var next := MoveTowards(current, target, maxDelta);
      if Abs(target - current) <= maxDelta {
        MoveTowardsStepsStays(target, maxDelta, n - 1);
      } else {
        MoveTowardsStepsGap(next, target, maxDelta, n - 1);
      }
    }
  }

  /** The same gap, with the distance travelled written as the product `n * maxDelta`. */
  lemma MoveTowardsStepsConverge(current: real, target: real, maxDelta: real, n: nat)
    requires 0.0 <= maxDelta
    ensures Abs(target - MoveTowardsSteps(current, target, maxDelta, n))
         == Max(0.0, Abs(target - current) - n as real * maxDelta)
  {
    MoveTowardsStepsGap(current, target, maxDelta, n);
    TravelIsProduct(n, maxDelta);
  }

  /**
    `MoveTowardsAngle`: like MoveTowards, but along the shortest turn. When
    the turn is strictly within reach it returns `target` itself; otherwise
    it moves towards `current + DeltaAngle(current, target)`, which it
    reaches, rather than `target`, when the turn is exactly `maxDelta` long.
  */
  function MoveTowardsAngle(current: real, target: real, maxDelta: real): (r: real)
    ensures 0.0 <= maxDelta ==> r == target || Abs(r - current) <= maxDelta
    ensures Abs(DeltaAngle(current, target)) < maxDelta ==> r == target
    ensures 0.0 <= maxDelta <= Abs(DeltaAngle(current, target)) ==>
      Abs(r - current) == maxDelta && Between(r, current, current + DeltaAngle(current, target))
    ensures maxDelta == Abs(DeltaAngle(current, target)) ==> r == current + DeltaAngle(current, target)
    ensures maxDelta < 0.0 ==>
      Abs(r - current) == -maxDelta && Between(current, r, current + DeltaAngle(current, target))
    ensures maxDelta < 0.0 && DeltaAngle(current, target) == 0.0 ==> r < current
  {
    var num := DeltaAngle(current, target);
    if -maxDelta < num && num < maxDelta then target
    else MoveTowards(current, current + num, maxDelta)
  }

  /**
    The remaining turn after MoveTowardsAngle is what MoveTowards leaves of
    the original turn when moving it towards zero: it shrinks by
    `maxDelta` in magnitude, keeps its sign, and reaches zero once in reach.
  */
  lemma MoveTowardsAngleGap(current: real, target: real, maxDelta: real)
    requires 0.0 <= maxDelta
    ensures DeltaAngle(MoveTowardsAngle(current, target, maxDelta), target)
         == MoveTowards(DeltaAngle(current, target), 0.0, maxDelta)
  {
    var num := DeltaAngle(current, target);
    var k :| num - (target - current) == Multiple(k, 360.0);
    var r := MoveTowardsAngle(current, target, maxDelta);
    if -maxDelta < num < maxDelta {
      DeltaAngleSelf(target);
    } else if Abs(num) <= maxDelta {
      assert r == current + num;
      assert 0.0 - (target - r) == Multiple(k, 360.0);
      DeltaAngleUnique(r, target, 0.0, k);
    } else {
      var s := Sign(num);
      assert r == current + s * maxDelta;
      var d := num - s * maxDelta;
      assert d - (target - r) == Multiple(k, 360.0);
      DeltaAngleUnique(r, target, d, k);
      assert Sign(0.0 - num) == -s;
    }
  }
}

=== FILE: model_importer.dfy ===
/**
  The data model of the model importer: the imported node tree, the
  `Model` aggregate with its accessors, and the importer's options with
  their defaults and setters.

  `Mesh`, `Animation` and `Avatar` are engine objects held by `shared_ptr`;
  they are represented by identity handles, and a possibly-null pointer is
  a `Wrappers.Option`.
*/
module ModelImport {
  import Wrappers

  newtype uint32 = x: int | 0 <= x < 0x1_0000_0000

  /** Exactly sixteen reals: the entries of a 4x4 matrix. */
  type Entries16 = s: seq<real> | |s| == 16 witness seq(16, _ => 0.0)

  /** A 4x4 transform, as its sixteen entries. */
  datatype Matrix4x4 = Matrix4x4(entries: Entries16)

  datatype Mesh = Mesh(id: nat)
  datatype Animation = Animation(id: nat)
  datatype Avatar = Avatar(id: nat)

  // ---------------------------------------------------------------------
  // ModelNode
  // ---------------------------------------------------------------------

  /**
    One node of the imported hierarchy. The raw `parent` pointer is a
    non-owning back reference; here it names the parent by its `index`
    (None for the root). Children are owned and kept in import order.
  */
  datatype ModelNode = ModelNode(
    index: uint32,
    name: string,
    parent: Wrappers.Option<uint32>,
    children: seq<ModelNode>,
    meshesIndices: seq<uint32>,
    transform: Matrix4x4,
    isBone: bool)

  // ---------------------------------------------------------------------
  // BuiltinModelType
  // ---------------------------------------------------------------------

  datatype BuiltinModelType = Cube | Sphere | Capsule | Cylinder | Plane | Quad | Cone

  /** The enumerator's underlying value: declaration order from 0. */
  function BuiltinOrdinal(t: BuiltinModelType): (k: nat)
    ensures k < 7
  {
    match t
    case Cube => 0
    case Sphere => 1
    case Capsule => 2
    case Cylinder => 3
    case Plane => 4
    case Quad => 5
    case Cone => 6
  }

  /** The enumerator with underlying value `k`; None for any other integer. */
  function BuiltinFromOrdinal(k: int): (r: Wrappers.Option<BuiltinModelType>)
    ensures r.Some? <==> 0 <= k < 7
  {
    if k == 0 then Wrappers.Some(Cube)
    else if k == 1 then Wrappers.Some(Sphere)
    else if k == 2 then Wrappers.Some(Capsule)
    else if k == 3 then Wrappers.Some(Cylinder)
    else if k == 4 then Wrappers.Some(Plane)
    else if k == 5 then Wrappers.Some(Quad)
    else if k == 6 then Wrappers.Some(Cone)
    else Wrappers.None
  }

  /** The seven builtin types and the values 0..6 correspond one to one. */
  lemma BuiltinOrdinalRoundTrip(t: BuiltinModelType, k: int)
    ensures BuiltinFromOrdinal(BuiltinOrdinal(t)) == Wrappers.Some(t)
    ensures 0 <= k < 7 ==> BuiltinOrdinal(BuiltinFromOrdinal(k).value) == k
  {
  }

  // ---------------------------------------------------------------------
  // Model
  // ---------------------------------------------------------------------

  /**
    The import result: meshes, animation clips, the root of the node tree
    and the avatar, each as held by the engine object.
  */
  datatype Model = Model(
    meshes: seq<Mesh>,
    animations: seq<Animation>,
    rootNode: Wrappers.Option<ModelNode>,
    avatarPtr: Wrappers.Option<Avatar>)

  /**
    The constructor: no meshes, no clips, no root yet, and a newly made
    avatar. The allocation of that avatar is passed in as `newAvatar`.
  */
  function NewModel(newAvatar: Avatar): (m: Model)
    ensures m.avatarPtr.Some?
    ensures |m.meshes| == 0 && |m.animations| == 0 && m.rootNode.None?
  {
    Model([], [], Wrappers.None, Wrappers.Some(newAvatar))
  }

  /** `avatar()`: the shared avatar pointer, handed out as stored. */
  function AvatarOf(m: Model): (r: Wrappers.Option<Avatar>)
    ensures r == m.avatarPtr
  {
    m.avatarPtr
  }

  /**
    The state of a `Model` is its four data members. Each accessor reads
    only its own member: changing the other three changes neither
    `avatar()` nor `mainAnimation()`, nor `mainMesh()` where it is defined.
  */
  lemma ModelRecord(m: Model, meshes: seq<Mesh>, animations: seq<Animation>,
                    rootNode: Wrappers.Option<ModelNode>, avatarPtr: Wrappers.Option<Avatar>)
    ensures AvatarOf(m.(meshes := meshes, animations := animations, rootNode := rootNode)) == AvatarOf(m)
    ensures MainAnimation(m.(meshes := meshes, rootNode := rootNode, avatarPtr := avatarPtr)) == MainAnimation(m)
    ensures |m.meshes| > 0 ==>
      MainMesh(m.(animations := animations, rootNode := rootNode, avatarPtr := avatarPtr)) == MainMesh(m)
  {
  }

  /**
    `mainMesh()`: indexes the mesh list at 0 without a check, so it is only
    defined on a model that has at least one mesh.
  */
  function MainMesh(m: Model): (r: Mesh)
    requires |m.meshes| > 0
    ensures r == m.meshes[0]
  {
    m.meshes[0]
  }

  /** `mainAnimation()`: null for a model without clips, else the first clip. */
  function MainAnimation(m: Model): (r: Wrappers.Option<Animation>)
    ensures r.None? <==> |m.animations| == 0
    ensures r.Some? ==> r.value == m.animations[0]
  {
    if |m.animations| == 0 then Wrappers.None else Wrappers.Some(m.animations[0])
  }

  /** A constructed model has a non-null avatar, and it is the one it was built with. */
  lemma NewModelHasAvatar(newAvatar: Avatar)
    ensures AvatarOf(NewModel(newAvatar)) == Wrappers.Some(newAvatar)
  {
  }

  /**
    The two accessors fail differently on a freshly constructed model: `mainAnimation()`
    answers null, while `mainMesh()` has no defined answer.
  */
  lemma AccessorsOnFreshModel(newAvatar: Avatar)
    ensures MainAnimation(NewModel(newAvatar)).None?
    ensures !(|NewModel(newAvatar).meshes| > 0)
  {
  }

  // ---------------------------------------------------------------------
  // Importer options
  // ---------------------------------------------------------------------

  /** Vertex normal generation options; `Import` is the default. */
  datatype ModelImporterNormals = Import | Calculate | None

  /** Vertex tangent generation options; `Calculate` is the default. */
  datatype ModelImporterTangents = Import | Calculate | None

  function NormalsOrdinal(n: ModelImporterNormals): (k: nat)
    ensures k < 3
  {
    match n
    case Import => 0
    case Calculate => 1
    case None => 2
  }

  function NormalsFromOrdinal(k: int): (r: Wrappers.Option<ModelImporterNormals>)
    ensures r.Some? <==> 0 <= k < 3
  {
    if k == 0 then Wrappers.Some(ModelImporterNormals.Import)
    else if k == 1 then Wrappers.Some(ModelImporterNormals.Calculate)
    else if k == 2 then Wrappers.Some(ModelImporterNormals.None)
    else Wrappers.None
  }

  function TangentsOrdinal(t: ModelImporterTangents): (k: nat)
    ensures k < 3
  {
    match t
    case Import => 0
    case Calculate => 1
    case None => 2
  }

  function TangentsFromOrdinal(k: int): (r: Wrappers.Option<ModelImporterTangents>)
    ensures r.Some? <==> 0 <= k < 3
  {
    if k == 0 then Wrappers.Some(ModelImporterTangents.Import)
    else if k == 1 then Wrappers.Some(ModelImporterTangents.Calculate)
    else if k == 2 then Wrappers.Some(ModelImporterTangents.None)
    else Wrappers.None
  }

  /** Each option type and the values 0..2 correspond one to one. */
  lemma OptionOrdinalsRoundTrip(n: ModelImporterNormals, t: ModelImporterTangents, k: int)
    ensures NormalsFromOrdinal(NormalsOrdinal(n)) == Wrappers.Some(n)
    ensures TangentsFromOrdinal(TangentsOrdinal(t)) == Wrappers.Some(t)
    ensures 0 <= k < 3 ==> NormalsOrdinal(NormalsFromOrdinal(k).value) == k
    ensures 0 <= k < 3 ==> TangentsOrdinal(TangentsFromOrdinal(k).value) == k
  {
  }

  /** The per-vertex attributes a mesh may keep. */
  datatype VertexUsage = Position | Normal | UV | Tangent

  type VertexUsages = set<VertexUsage>

  /** Position, normal, UV and tangent: every attribute. */
  const PNUT: VertexUsages := {Position, Normal, UV, Tangent}

  /** PNUT keeps every attribute there is. */
  lemma PNUTIsEverything(u: VertexUsage)
    ensures u in PNUT
  {
    match u
    case Position =>
    case Normal =>
    case UV =>
    case Tangent =>
  }

  /**
    The importer's state: its options, the model under construction and
    the per-node transforms gathered while removing dummy nodes.
  */
  datatype ModelImporter = ModelImporter(
    fileScale: real,
    model: Wrappers.Option<Model>,
    vertexUsages: VertexUsages,
    importNormals: ModelImporterNormals,
    importTangents: ModelImporterTangents,
    nodeTransformations: map<string, map<string, Matrix4x4>>)

  /** The default-constructed importer. */
  function DefaultImporter(): (imp: ModelImporter)
    ensures imp.fileScale == 1.0
    ensures imp.importNormals == ModelImporterNormals.Import
    ensures imp.importTangents == ModelImporterTangents.Calculate
    ensures forall u: VertexUsage :: u in imp.vertexUsages
    ensures imp.model.None? && imp.nodeTransformations == map[]
  {
    forall u: VertexUsage ensures u in PNUT {
      PNUTIsEverything(u);
    }
    ModelImporter(1.0, Wrappers.None, PNUT,
      ModelImporterNormals.Import, ModelImporterTangents.Calculate, map[])
  }

  function SetFileScale(imp: ModelImporter, fileScale: real): (r: ModelImporter)
    ensures r.fileScale == fileScale
    ensures r.model == imp.model && r.vertexUsages == imp.vertexUsages
    ensures r.importNormals == imp.importNormals && r.importTangents == imp.importTangents
    ensures r.nodeTransformations == imp.nodeTransformations
  {
    imp.(fileScale := fileScale)
  }

  function SetImportNormals(imp: ModelImporter, importNormals: ModelImporterNormals): (r: ModelImporter)
    ensures r.importNormals == importNormals
    ensures r.fileScale == imp.fileScale && r.model == imp.model && r.vertexUsages == imp.vertexUsages
    ensures r.importTangents == imp.importTangents
    ensures r.nodeTransformations == imp.nodeTransformations
  {
    imp.(importNormals := importNormals)
  }

  function SetImportTangents(imp: ModelImporter, importTangents: ModelImporterTangents): (r: ModelImporter)
    ensures r.importTangents == importTangents
    ensures r.fileScale == imp.fileScale && r.model == imp.model && r.vertexUsages == imp.vertexUsages
    ensures r.importNormals == imp.importNormals
    ensures r.nodeTransformations == imp.nodeTransformations
  {
    imp.(importTangents := importTangents)
  }

  /** Setting a field to its current value changes nothing. */
  lemma SettersIdempotent(imp: ModelImporter)
    ensures SetFileScale(imp, imp.fileScale) == imp
    ensures SetImportNormals(imp, imp.importNormals) == imp
    ensures SetImportTangents(imp, imp.importTangents) == imp
  {
  }

  /** A later call to the same setter overrides an earlier one. */
  lemma SettersLastWriteWins(imp: ModelImporter, s1: real, s2: real,
                             n1: ModelImporterNormals, n2: ModelImporterNormals,
                             t1: ModelImporterTangents, t2: ModelImporterTangents)
    ensures SetFileScale(SetFileScale(imp, s1), s2) == SetFileScale(imp, s2)
    ensures SetImportNormals(SetImportNormals(imp, n1), n2) == SetImportNormals(imp, n2)
    ensures SetImportTangents(SetImportTangents(imp, t1), t2) == SetImportTangents(imp, t2)
  {
  }

  /** The three setters touch disjoint fields, so they commute. */
  lemma SettersCommute(imp: ModelImporter, s: real, n: ModelImporterNormals, t: ModelImporterTangents)
    ensures SetImportNormals(SetFileScale(imp, s), n) == SetFileScale(SetImportNormals(imp, n), s)
    ensures SetImportTangents(SetFileScale(imp, s), t) == SetFileScale(SetImportTangents(imp, t), s)
    ensures SetImportTangents(SetImportNormals(imp, n), t) == SetImportNormals(SetImportTangents(imp, t), n)
  {
  }
}

=== FILE: wrappers.dfy ===
/** A nullable value: stands for the engine's possibly-null `shared_ptr`s. */
module Wrappers {

  datatype Option<+T> = None | Some(value: T)
}
